=== FILE: README.md ===
# FYTA plant sensors for the Unfolded Circle remote: a verified model of the driver's decision logic

The FYTA integration logs in to the FYTA cloud, reads the user's plants and
publishes two sensor entities per plant with a sensor to the remote's
integration host: a temperature sensor and a moisture sensor that shows a
status text. This project models the pure decision logic inside `driver.py`
and proves properties about it in Dafny:

- **Status labels** (`Status`): status codes 0 to 5 map to "No Data",
  "Too Low", "Low", "Perfect", "High" and "Too High". Every other value
  maps to "Unknown".
- **Entities** (`Entities`): the identifiers `fyta-plant-<id>` and
  `fyta-moisture-<id>`, the display names, and the initial attributes.
- **Readings** (`Readings`): how a temperature or moisture measurement
  sets the entity's VALUE and status attributes. This covers the "No Data"
  code, the "To Low" special case (spelled that way in the source), the
  battery-low suffix, and the fallback values on the exception paths.
- **Registry** (`Registry`): the plant loop of `create_plant_sensors`. It
  decides which plants get entities, what those entities start with, and
  how they accumulate in `_plant_sensors`. That map is never reset.
- **Subscription** (`Subscription`): `on_subscribe_entities`. Available
  entities are copied into the configured ones and switched on; unknown
  ids are ignored.
- **Config** (`Config`): the six-key object `save_config` writes, and the
  record `load_config` builds from it with its defaults.
- **Setup** (`Setup`): the INIT / ACCOUNT_CONFIG state machine of
  `driver_setup_handler`, `handle_driver_setup` and `handle_account_config`.

The JSON documents the driver receives are modelled as a `Json` datatype
(module `PyJson`). This keeps the Python operations the driver applies to
them exact:
- truthiness;
- `==` against an int literal, where `True == 1` and `1.0 == 1`;
- `in` on a dict, a list or a string;
- `[]`, and `.get` on a value that is not a dict.

So the model takes the same branches as the source, including the ones
where Python raises. An exception is a `Raised` result carrying its
message. Network results are inputs rather than calls. These are the login
response, the plant list, each plant's details, the generated uuid and
whether the config file write succeeds.

`driver.py`'s setup handler authenticates and loads all plants before it
answers the host; the model does the same.

Note: the "To Low" branch compares the moisture
`current` reading with the string `"0"`. A numeric `0` does not match it,
so such a reading gets the ordinary "Too Low" label. `ApplyMoisture`
states both cases.

## Model

| member | source | states |
|---|---|---|
| Status.StatusText | driver.py:622-637 | The result is one of the seven labels. It is the k-th table label exactly when the code equals k (for k in 0..5, by Python `==`), and "Unknown" exactly when it equals none of them. |
| Status.IntegerCodes | driver.py:622-637 | An integer code in 0..5 gets its table label; any other integer gets "Unknown". |
| Status.NonNumbersAreUnknown | driver.py:622-637 | A missing status, a string such as "3", a list or an object is shown as "Unknown". |
| Entities.NewTemperatureSensor | driver.py:67-105 | A new temperature entity has identifier `fyta-plant-<id>`, name "<nickname> Temperature", VALUE "0", state UNKNOWN, the given scientific name, and no status, unit or moisture status yet. |
| Entities.NewMoistureSensor | driver.py:111-148 | A new moisture entity has identifier `fyta-moisture-<id>`, name "<nickname> Moisture", VALUE "Unknown", state UNKNOWN, the given scientific name, and no remembered status, unit or temperature status yet. |
| Entities.TemperatureIdInjective | driver.py:75 | Two temperature identifiers are equal if and only if the plant ids are equal. |
| Entities.MoistureIdInjective | driver.py:119 | Two moisture identifiers are equal if and only if the plant ids are equal. |
| Entities.IdsNeverCollide | driver.py:75-119 | No temperature identifier equals any moisture identifier, whatever the two plant ids. |
| Entities.SensorPairDistinct | driver.py:480-491 | The two entities created for one plant have different identifiers. |
| Readings.ApplyTemperature | driver.py:504-531 | Status 0 gives VALUE "0" and status "No Data". Otherwise a `current` reading in the values object becomes VALUE as its string form; without one the previous VALUE is kept. A falsy values field keeps the previous VALUE and sets the label, and so does a values field that is not an object unless the fallback runs. The status attribute is the code's label unless the fallback ran, and the fallback sets VALUE "0" and status "Error". The fallback runs exactly when the code is not 0, the values field is truthy but not an object, and `"current" in values` does not answer False. Nothing else changes. |
| Readings.TemperatureStatusIsLabel | driver.py:513-526 | When the values field is an object (or falsy), the status attribute is always the label of the code. |
| Readings.ApplyMoisture | driver.py:533-562 | Status 0 gives "No Data". Status 1 with `current == "0"` gives "To Low". Status 1 with any other `current` gives "Too Low". Other codes give their label. The battery suffix is appended when the battery is low. The status code is remembered (a missing status as None) except for status 0 and on the error path. Status 1 with a values field that is not an object raises inside the try, and the fallback shows "Unknown". Nothing else changes. |
| Readings.MoistureValueShape | driver.py:541-562 | The moisture VALUE is a status label or "To Low", followed by " (Battery Low)" exactly when the battery is low. The one exception is the error path, which shows "Unknown". |
| Readings.BatterySuffixExactlyOnce | driver.py:555-558 | Without low battery the VALUE never ends with " (Battery Low)". With low battery it ends with it exactly when the error path was not taken. When present, the suffix appears once: what precedes it does not end with it again. |
| Registry.Measurement | driver.py:505-534 | On a measurements object, the result is the object under the key when there is one, and nothing otherwise. On any other value it raises exactly when `key in measurements` does not answer False; when that test answers False there is no measurement. |
| Registry.BatteryLow | driver.py:498-502 | Without a `sensor` field the battery is not low. With a sensor object it is the truthiness of its `is_battery_low` (default False). A sensor field that is not an object raises. |
| Registry.ApplyDetails | driver.py:493-562 | Only the measured attributes of the two entities change. Details of FYTA's shape never raise. Details without `measurements` leave both entities as they were. |
| Registry.ProcessPlant | driver.py:450-566 | A plant gets entities only if it is an object with a sensor object whose `has_sensor` is truthy, a non-null id and truthy details. With FYTA-shaped details the converse holds too. The entities carry the identifiers built from `str(id)`. The nickname defaults to "Plant <id>" and the scientific name to "Unknown". |
| Registry.InitialValues | driver.py:493-562 | With FYTA-shaped details, the entities are the fresh sensors with the temperature and moisture measurements (and the battery flag) applied. A missing or non-object measurement leaves its sensor at the defaults. |
| Registry.AddPlant | driver.py:564-577 | A skipped plant leaves the registry as it was. A plant with entities adds its two identifiers, stores each entity under its own identifier, counts two, and leaves every other entry unchanged. |
| Registry.RegisterPlants | driver.py:450-588 | Going through the plant list never removes an identifier and never lowers `entities_created`. |
| Registry.LastWriterWins | driver.py:450-577 | After the loop, a plant's entities are the ones stored under its identifiers, unless a later plant with the same id also got entities. |
| Registry.UserPlants | driver.py:358-405 | The plant list always has a length, so the log line at the top of the loop never raises. Without a token, on a failed call, or on a body that is not a dict, the list is empty. On a dict body it is the `plants` value (default empty), unless `len` rejects that value, in which case it is empty too. |
| Registry.NullPlantListIsEmpty | driver.py:379-405 | A body with `plants: null` gives the empty list rather than an exception. |
| Registry.PlantItems | driver.py:450 | The loop visits a list's items, or a string's one-character strings. Everything it visits in a non-list is a string. |
| Registry.StringPlantSkipped | driver.py:450-456 | A string plant has no `.get`, so it is skipped with that error. |
| Registry.StringPlantsChangeNothing | driver.py:450-588 | A list of string plants leaves the registry as it was. This is why a dict plant list, whose iteration yields its keys, has the same effect as an empty one. |
| Registry.RegisterPlantsEffect | driver.py:443-588 | The registry gains exactly the two identifiers of every plant that gets entities. `entities_created` grows by two per such plant. Entries under other identifiers are untouched. Every written entry is keyed by its own identifier. |
| Registry.RegistryNeverShrinks | driver.py:440-566 | No existing registry entry is removed, because the reset is commented out. |
| Registry.RegisterConcat | driver.py:450-588 | Processing the plant list in two parts gives the same result as processing it at once: the loop composes, and a plant's outcome does not depend on the registry. |
| Registry.SkippedPlantChangesNothing | driver.py:460-477 | A skipped plant changes nothing. The plants after it are processed as if it were absent. |
| Registry.CreatePlantSensors | driver.py:438-590 | The loop computes the same registry as the fold, with the key set, count, untouched entries and self-keyed entries described above. |
| Subscription.Activate | driver.py:668-696 | A subscribed entity has state ON and keeps its identifier, kind, name and VALUE. A temperature sensor gets unit "°C"; a moisture sensor keeps its unit. No other attribute changes. |
| Subscription.ActivateIdempotent | driver.py:674-695 | Switching an entity on twice is the same as once. |
| Subscription.SubscribeOne | driver.py:658-696 | One requested id: the configured entity, or else the available one (which is added), is switched on. An unknown id changes nothing. Every other entry stays as it was. |
| Subscription.Subscribe | driver.py:656-696 | A subscription never drops a configured entity and only adds available ones. |
| Subscription.SubscribeEffect | driver.py:647-696 | Configured ids become the old ones plus the requested ids that are available; unknown ids are ignored. Entries not requested are unchanged. Every requested entry is the configured entity, or else the available one, switched on. |
| Subscription.SubscribedAreOn | driver.py:656-696 | Every requested entity that exists is configured and ON afterwards. |
| Subscription.SubscribeIdempotent | driver.py:656-696 | Repeating a subscription changes nothing. |
| Config.SaveConfig | driver.py:280-298 | The saved object has exactly the six keys id, email, password, access_token, refresh_token, expires_in. |
| Config.LoadConfig | driver.py:301-321 | Loading yields a record exactly when the file exists and holds an object. Saving that record keeps the six known keys' stored values, fills missing ones with the defaults (fresh id, "" email and password, None tokens) and drops other keys. |
| Config.LoadSaveRoundTrip | driver.py:280-318 | Loading the object `save_config` writes gives the saved record back. |
| Config.EmptyObjectLoadsDefaults | driver.py:311-318 | An empty object loads as the default record. |
| Setup.Start | driver.py:699-716 | At startup the step is INIT and there are no sensors. A record is loaded exactly when the file holds an object, and a file with exactly the six keys is reproduced by saving that record. |
| Setup.HandleSetup | driver.py:201-228 | A setup request moves to ACCOUNT_CONFIG, an abort to INIT; every other message keeps the step. Only a setup request gets the form. Completion needs a user-data response in ACCOUNT_CONFIG. No message removes a sensor. |
| Setup.AccountConfigStep | driver.py:231-277 | The step is kept. Every error answer leaves the state unchanged. Completion stores a record, writes it to the file when the write works, and only adds sensors. |
| Setup.SetupRequestOpensForm | driver.py:210-228 | A DriverSetupRequest, in any state, moves the step to ACCOUNT_CONFIG and returns the account form. It changes nothing else. |
| Setup.AbortResets | driver.py:217-221 | AbortDriverSetup resets the step to INIT and answers SetupError. It changes nothing else. |
| Setup.UserDataOutsideAccountStep | driver.py:213-221 | A UserDataResponse outside ACCOUNT_CONFIG answers SetupError and changes nothing. |
| Setup.ErrorsChangeNothing | driver.py:201-277 | For every message but an abort, an error answer leaves the whole state unchanged. |
| Setup.AccountConfigOutcome | driver.py:231-277 | Setup completes if and only if both fields are present and the login response is an object with `access_token`. Then the record holds the typed email and password and the response's tokens, the step stays ACCOUNT_CONFIG, and the plants `get_user_plants` returns with the new token are registered (none when that token is falsy). A missing field gives "Please provide both email and password". A falsy response, or one where `"access_token" in response` answers False, gives "Authentication failed. Please check your credentials.". A failed login, or an `in` test that raises (a truthy number or bool response), gives "Error: " followed by the exception text. |
| Setup.SavedConfigReloads | driver.py:255-318 | After a successful setup whose file write worked, loading the config file yields exactly the record the driver holds. |
| Setup.StepTracksSession | driver.py:201-228 | Starting from INIT, the step is ACCOUNT_CONFIG exactly when a setup request has been seen and no abort since. |
| Setup.CompletionNeedsOpenSession | driver.py:210-228 | SetupComplete can only be answered after a setup request with no abort in between. |
| Setup.SensorsNeverRemoved | driver.py:231-273 | No sequence of setup messages removes a sensor from the registry. |

## Left out

- HTTP calls (`authenticate_fyta`, the request of `get_user_plants`, `get_plant_details`): their results are inputs. The plant-list input is the decoded body, or the text of the exception the request raised.
- The 401 re-authentication retry of `get_user_plants` is not modelled: the tokens it writes into the stored record and the config file are not represented, and its final plant list is taken as the plant-list input. A plant's details input is what the call returned, with `{}` on failure. The login input is either the decoded response or the text of the exception it raised.
- Plants with the same id are given the same details document: the details input is one document per `str(id)`, whereas the source calls `get_plant_details` once per plant and could get different answers for repeated ids.
- File and environment access in `save_config` / `load_config`, and JSON encoding and decoding: loading takes the decoded file content, or `None` when the file is missing or does not parse. `save_config`'s failure is an input flag.
- `uuid.uuid4()`: the fresh id is an input string.
- The ucapi host library. `available_entities.add` is taken to store the entity under its identifier, as `_plant_sensors` does. The `contains` checks after it therefore always succeed, and `entities_created` counts two per plant. `configured_entities.update_attributes` is taken to overwrite the given attributes. `set_device_state` (`on_r2_connect_cmd`, `on_r2_disconnect_cmd`), `api.init`, `main`, the event loop and the entity options/device class are not modelled.
- The tail of `create_plant_sensors` after the loop (listing entities and states), and any exception it could raise, are ucapi calls and are not modelled.
- Subscription.SubscribeEffect: in the source the configured and available entries are the same Python object, so switching one on also changes the other. The model updates only the configured copy.
- PyJson.Str: `str()` of a list or dict used as a plant id, nickname or reading is a fixed placeholder ("[...]" / "{...}") rather than Python's repr. The FYTA API does not send containers in these fields. The text of a float is carried in the value as given. NaN and infinities are not represented.
- Duplicate keys and key order in JSON objects are not represented, since objects are Dafny maps.
- Setup.AccountConfigStep: a failed save is modelled as a failure of `open()` that leaves the old file in place. A failure during `json.dump`, after mode "w" has emptied the file, would leave an empty or partial file that `load_config` turns into None; that case is not represented.
- The fields `temperature`, `temperature_status` and `last_updated` of the temperature sensor and `last_updated` of the moisture sensor are set to None at construction and never changed afterwards, so they are omitted.
- Logging.

=== FILE: config.dfy ===
/** The persisted FYTA account record (`FytaConfig`) and its mapping to and
    from the JSON object `save_config` writes and `load_config` reads. The
    file system is not modelled: loading takes the decoded file content, or
    `None` when the file is absent or does not parse. Every field holds
    whatever JSON value was stored, as in the source, which does not check
    types. */
module Config {

  import opened Results
  import opened PyJson

  datatype FytaConfig = FytaConfig(
    id: Json,
    email: Json,
    password: Json,
    accessToken: Json,
    refreshToken: Json,
    expiresIn: Json)

  /** The six keys of the saved object. */
  const ConfigKeys: set<string> := {"id", "email", "password", "access_token", "refresh_token", "expires_in"}

  /** The object `save_config` writes: the six keys and nothing else. */
  function SaveConfig(c: FytaConfig): (m: map<string, Json>)
    ensures m.Keys == ConfigKeys
  {
    map[
      "id" := c.id,
      "email" := c.email,
      "password" := c.password,
      "access_token" := c.accessToken,
      "refresh_token" := c.refreshToken,
      "expires_in" := c.expiresIn]
  }

  /** The record `load_config` builds; `freshId` stands for the uuid it
      generates when the file has no id. A file whose content is not an
      object makes `data.get` raise, which `load_config` turns into `None`. */
  function LoadConfig(file: Option<Json>, freshId: string): (r: Option<FytaConfig>)
    ensures r.Some? <==> file.Some? && file.value.JObj?
    ensures r.Some? ==>
              SaveConfig(r.value) == Defaults(freshId) + (map k | k in file.value.fields && k in ConfigKeys :: file.value.fields[k])
  {
    match file
    case None => None
    case Some(JObj(data)) =>
      Some(FytaConfig(
        Get(data, "id", JStr(freshId)),
        Get(data, "email", JStr("")),
        Get(data, "password", JStr("")),
        Get(data, "access_token", JNull),
        Get(data, "refresh_token", JNull),
        Get(data, "expires_in", JNull)))
    case Some(_) => None
  }

  /** The values `load_config` uses for keys the file does not have. */
  function Defaults(freshId: string): map<string, Json> {
    map[
      "id" := JStr(freshId),
      "email" := JStr(""),
      "password" := JStr(""),
      "access_token" := JNull,
      "refresh_token" := JNull,
      "expires_in" := JNull]
  }

  /** Loading what was saved gives the saved record back. */
  lemma LoadSaveRoundTrip(c: FytaConfig, freshId: string)
    ensures LoadConfig(Some(JObj(SaveConfig(c))), freshId) == Some(c)
  {
  }

  /** An empty file object loads as the default record. */
  lemma EmptyObjectLoadsDefaults(freshId: string)
    ensures LoadConfig(Some(JObj(map[])), freshId)
            == Some(FytaConfig(JStr(freshId), JStr(""), JStr(""), JNull, JNull, JNull))
  {
  }
}

=== FILE: entities.dfy ===
/** The two sensor entities the driver publishes per plant
    (`PlantTemperatureSensor`, `PlantMoistureSensor`): identifiers, display
    names and the attributes they start with. */
module Entities {

  import opened Results
  import opened PyJson

  datatype SensorKind = Temperature | Moisture

  /** The `state` attribute: UNKNOWN at creation, ON once subscribed. */
  datatype EntityState = StateUnknown | StateOn

  /** A sensor entity. `value` is the VALUE attribute; `status` is the
      temperature sensor's "status" attribute (absent until a temperature
      measurement is applied); `unit` is the UNIT attribute set on
      subscription; `moistureStatus` is the status code a moisture sensor
      remembers. */
  datatype Entity = Entity(
    kind: SensorKind,
    id: string,
    name: string,
    plantId: string,
    state: EntityState,
    value: string,
    status: Option<string>,
    unit: Option<string>,
    scientificName: Json,
    moistureStatus: Option<Json>)

  const TemperaturePrefix: string := "fyta-plant-"
  const MoisturePrefix: string := "fyta-moisture-"

  function TemperatureId(plantId: string): string {
    TemperaturePrefix + plantId
  }

  function MoistureId(plantId: string): string {
    MoisturePrefix + plantId
  }

  function NewTemperatureSensor(plantId: string, nickname: string, scientificName: Json): (e: Entity)
    ensures e.kind == Temperature && e.id == TemperatureId(plantId) && e.plantId == plantId
    ensures e.name == nickname + " Temperature"
    ensures e.state == StateUnknown && e.value == "0" && e.status == None
    ensures e.scientificName == scientificName && e.unit == None && e.moistureStatus == None
  {
    Entity(Temperature, TemperatureId(plantId), nickname + " Temperature", plantId,
           StateUnknown, "0", None, None, scientificName, None)
  }

  function NewMoistureSensor(plantId: string, nickname: string, scientificName: Json): (e: Entity)
    ensures e.kind == Moisture && e.id == MoistureId(plantId) && e.plantId == plantId
    ensures e.name == nickname + " Moisture"
    ensures e.state == StateUnknown && e.value == "Unknown" && e.moistureStatus == None
    ensures e.scientificName == scientificName && e.unit == None && e.status == None
  {
    Entity(Moisture, MoistureId(plantId), nickname + " Moisture", plantId,
           StateUnknown, "Unknown", None, None, scientificName, None)
  }

  /** A prefixed identifier determines the plant id it was built from. */
  lemma {:induction false} StripPrefix(prefix: string, a: string, b: string)
    requires prefix + a == prefix + b
    ensures a == b
  {
    assert a == (prefix + a)[|prefix|..];
    assert b == (prefix + b)[|prefix|..];
  }

  /** Distinct plants get distinct temperature identifiers. */
  lemma TemperatureIdInjective(a: string, b: string)
    ensures TemperatureId(a) == TemperatureId(b) <==> a == b
  {
    if TemperatureId(a) == TemperatureId(b) {
      StripPrefix(TemperaturePrefix, a, b);
    }
  }

  /** Distinct plants get distinct moisture identifiers. */
  lemma MoistureIdInjective(a: string, b: string)
    ensures MoistureId(a) == MoistureId(b) <==> a == b
  {
    if MoistureId(a) == MoistureId(b) {
      StripPrefix(MoisturePrefix, a, b);
    }
  }

  /** No temperature identifier is a moisture identifier, whatever the two
      plant ids: the prefixes differ at their sixth character. */
  lemma IdsNeverCollide(a: string, b: string)
    ensures TemperatureId(a) != MoistureId(b)
  {
    assert TemperatureId(a)[5] == 'p';
    assert MoistureId(b)[5] == 'm';
  }

  /** The two entities of one plant never share an identifier, and each
      names its own kind. */
  lemma SensorPairDistinct(plantId: string, nickname: string, scientificName: Json)
    ensures NewTemperatureSensor(plantId, nickname, scientificName).id
            != NewMoistureSensor(plantId, nickname, scientificName).id
  {
    IdsNeverCollide(plantId, plantId);
  }
}

=== FILE: pyjson.dfy ===
/** Option and Result types shared by the model. A Python exception that
    escapes an expression is modelled as `Raised` carrying `str(exception)`. */
module Results {

  datatype Option<+T> = None | Some(value: T)

  datatype Result<+T> = Ok(value: T) | Raised(error: string) {

    predicate IsFailure() {
      Raised?
    }

    function PropagateFailure<U>(): Result<U>
      requires Raised?
    {
      Raised(error)
    }

    function Extract(): T
      requires Ok?
    {
      value
    }
  }
}

/** Decoded JSON documents as Python's `json` module hands them to the
    driver, together with the few Python operations the driver applies to
    them: truthiness, `==` against an int literal, `in`, `[]`, `.get` and
    `str()`. Operations that Python would reject with an exception return
    `Raised` with the message Python prints. */
module PyJson {

  import opened Results

  datatype Json =
    | JNull
    | JBool(b: bool)
    | JInt(i: int)
      /** A float: its value and the text `str()` renders for it. */
    | JFloat(x: real, text: string)
    | JStr(s: string)
    | JArr(items: seq<Json>)
    | JObj(fields: map<string, Json>)

  /** The Python type name used in exception messages. */
  function TypeName(j: Json): string {
    match j
    case JNull => "NoneType"
    case JBool(_) => "bool"
    case JInt(_) => "int"
    case JFloat(_, _) => "float"
    case JStr(_) => "str"
    case JArr(_) => "list"
    case JObj(_) => "dict"
  }

  /** Python truthiness: `if j:` */
  predicate Truthy(j: Json) {
    match j
    case JNull => false
    case JBool(b) => b
    case JInt(i) => i != 0
    case JFloat(x, _) => x != 0.0
    case JStr(s) => |s| > 0
    case JArr(items) => |items| > 0
    case JObj(fields) => |fields| > 0
  }

  /** Python `j == k` for an int literal `k`; bools and floats compare by value. */
  predicate EqualsInt(j: Json, k: int) {
    match j
    case JBool(b) => (if b then 1 else 0) == k
    case JInt(i) => i == k
    case JFloat(x, _) => x == k as real
    case _ => false
  }

  /** `dict.get(key, default)` on a dict. */
  function Get(fields: map<string, Json>, key: string, default: Json): Json {
    if key in fields then fields[key] else default
  }

  /** `j.get(key, default)` where `j` may be any value: only dicts have `get`. */
  function DictGet(j: Json, key: string, default: Json): Result<Json> {
    if j.JObj? then Ok(Get(j.fields, key, default))
    else Raised("'" + TypeName(j) + "' object has no attribute 'get'")
  }

  /** `t` occurs in `s` as a contiguous piece. */
  predicate IsSubstring(t: string, s: string)
    decreases |s|
  {
    t <= s || (|s| > 0 && IsSubstring(t, s[1..]))
  }

  /** Python `key in j` for a string `key`. */
  function Contains(key: string, j: Json): Result<bool> {
    match j
    case JObj(fields) => Ok(key in fields)
    case JArr(items) => Ok(JStr(key) in items)
    case JStr(s) => Ok(IsSubstring(key, s))
    case _ => Raised("argument of type '" + TypeName(j) + "' is not iterable")
  }

  /** Python `j[key]` for a string `key`. */
  function Subscript(j: Json, key: string): Result<Json> {
    match j
    case JObj(fields) =>
      if key in fields then Ok(fields[key]) else Raised("'" + key + "'")
    case JArr(_) => Raised("list indices must be integers or slices, not str")
    case JStr(_) => Raised("string indices must be integers, not 'str'")
    case _ => Raised("'" + TypeName(j) + "' object is not subscriptable")
  }

  /** `len(j)`: defined on strings, lists and dicts; a container has a
      length exactly when truthiness is decided by it. */
  function Len(j: Json): (r: Result<nat>)
    ensures r.Ok? <==> j.JStr? || j.JArr? || j.JObj?
    ensures r.Ok? ==> (Truthy(j) <==> r.value > 0)
    ensures r.Raised? ==> r.error == "object of type '" + TypeName(j) + "' has no len()"
  {
    match j
    case JStr(s) => Ok(|s|)
    case JArr(items) => Ok(|items|)
    case JObj(fields) => Ok(|fields|)
    case _ => Raised("object of type '" + TypeName(j) + "' has no len()")
  }

  function DigitChar(d: nat): char
    requires d < 10
  {
    "0123456789"[d]
  }

  function NatToDecimal(n: nat): string
    decreases n
  {
    if n < 10 then [DigitChar(n)] else NatToDecimal(n / 10) + [DigitChar(n % 10)]
  }

  function IntToDecimal(i: int): string {
    if i < 0 then "-" + NatToDecimal(-i) else NatToDecimal(i)
  }

  /** Python `str(j)`. Lists and dicts get a fixed placeholder rather than
      their full repr. */
  function Str(j: Json): string {
    match j
    case JNull => "None"
    case JBool(b) => if b then "True" else "False"
    case JInt(i) => IntToDecimal(i)
    case JFloat(_, text) => text
    case JStr(s) => s
    case JArr(_) => "[...]"
    case JObj(_) => "{...}"
  }
}

=== FILE: readings.dfy ===
/** How one plant's temperature and moisture measurements become the
    attributes of its two sensor entities (the measurement branches of
    `create_plant_sensors`). A measurement is the JSON object FYTA sends
    under `measurements.temperature` / `measurements.moisture`, with an
    optional `status` code and an optional `values` object. */
module Readings {

  import opened Results
  import opened PyJson
  import opened Status
  import opened Entities

  /** The "status" attribute set when processing a temperature raised. */
  const ErrorStatus: string := "Error"

  const BatterySuffix: string := " (Battery Low)"

  /** The label shown for moisture status 1 with a current reading of "0";
      the source spells it this way. */
  const ZeroMoistureLabel: string := "To Low"

  predicate EndsWith(s: string, suffix: string) {
    |suffix| <= |s| && s[|s| - |suffix|..] == suffix
  }

  function WithBattery(base: string, batteryLow: bool): string {
    if batteryLow then base + BatterySuffix else base
  }

  function StatusCode(m: map<string, Json>): Json {
    Get(m, "status", JNull)
  }

  function Values(m: map<string, Json>): Json {
    Get(m, "values", JObj(map[]))
  }

  /** Applies a temperature measurement to a temperature sensor. */
  function ApplyTemperature(e: Entity, m: map<string, Json>): (r: Entity)
    ensures r == e.(value := r.value, status := r.status)
    ensures r.status.Some?
    ensures EqualsInt(StatusCode(m), 0) ==> r.value == "0" && r.status == Some("No Data")
    ensures !EqualsInt(StatusCode(m), 0) && Values(m).JObj? && "current" in Values(m).fields ==>
              r.value == Str(Values(m).fields["current"]) && r.status == Some(StatusText(StatusCode(m)))
    ensures !EqualsInt(StatusCode(m), 0) && Values(m).JObj? && "current" !in Values(m).fields ==>
              r.value == e.value && r.status == Some(StatusText(StatusCode(m)))
    ensures !EqualsInt(StatusCode(m), 0) && !Truthy(Values(m)) ==>
              r.value == e.value && r.status == Some(StatusText(StatusCode(m)))
    ensures r.status != Some(ErrorStatus) ==> r.status == Some(StatusText(StatusCode(m)))
    ensures r.status == Some(ErrorStatus) ==> r.value == "0"
    ensures !EqualsInt(StatusCode(m), 0) && !Values(m).JObj? && r.status != Some(ErrorStatus) ==>
              r.value == e.value
    ensures r.status == Some(ErrorStatus) <==>
              && !EqualsInt(StatusCode(m), 0) && Truthy(Values(m)) && !Values(m).JObj?
              && Contains("current", Values(m)) != Ok(false)
  {
    var code := StatusCode(m);
    var values := Values(m);
    var fallback := e.(value := "0", status := Some(ErrorStatus));
    if EqualsInt(code, 0) then
      e.(value := "0", status := Some(StatusText(code)))
    else if !Truthy(values) then
      e.(status := Some(StatusText(code)))
    else
      match Contains("current", values)
      case Raised(_) => fallback
      case Ok(found) =>
        if !found then e.(status := Some(StatusText(code)))
        else
          match Subscript(values, "current")
          case Raised(_) => fallback
          case Ok(reading) => e.(value := Str(reading), status := Some(StatusText(code)))
  }

  /** With an object (or falsy) values field the temperature "status"
      attribute is always the label of the code: only a truthy values field
      that is not an object can make the lookup of "current" raise. */
  lemma TemperatureStatusIsLabel(e: Entity, m: map<string, Json>)
    requires Values(m).JObj? || !Truthy(Values(m))
    ensures ApplyTemperature(e, m).status == Some(StatusText(StatusCode(m)))
  {
    if EqualsInt(StatusCode(m), 0) {
      assert StatusText(StatusCode(m)) == "No Data";
    }
  }

  /** The value `moisture_status` is set to: the status code, where a
      missing or null status is Python's None. */
  function Remembered(code: Json): Option<Json> {
    if code.JNull? then None else Some(code)
  }

  /** Applies a moisture measurement to a moisture sensor; `batteryLow` is
      the plant's `sensor.is_battery_low` flag. */
  function ApplyMoisture(e: Entity, m: map<string, Json>, batteryLow: bool): (r: Entity)
    ensures r == e.(value := r.value, moistureStatus := r.moistureStatus)
    ensures EqualsInt(StatusCode(m), 0) ==>
              r.value == WithBattery("No Data", batteryLow) && r.moistureStatus == e.moistureStatus
    ensures EqualsInt(StatusCode(m), 1) && Values(m).JObj? && Get(Values(m).fields, "current", JNull) == JStr("0") ==>
              r.value == WithBattery(ZeroMoistureLabel, batteryLow) && r.moistureStatus == Remembered(StatusCode(m))
    ensures EqualsInt(StatusCode(m), 1) && !Values(m).JObj? ==>
              r.value == "Unknown" && r.moistureStatus == e.moistureStatus
    ensures !EqualsInt(StatusCode(m), 0) && !EqualsInt(StatusCode(m), 1) ==>
              r.value == WithBattery(StatusText(StatusCode(m)), batteryLow) && r.moistureStatus == Remembered(StatusCode(m))
    ensures EqualsInt(StatusCode(m), 1) && Values(m).JObj? && Get(Values(m).fields, "current", JNull) != JStr("0") ==>
              r.value == WithBattery("Too Low", batteryLow) && r.moistureStatus == Remembered(StatusCode(m))
  {
    var code := StatusCode(m);
    var values := Values(m);
    if EqualsInt(code, 0) then
      e.(value := WithBattery("No Data", batteryLow))
    else if EqualsInt(code, 1) then
      match DictGet(values, "current", JNull)
      case Raised(_) => e.(value := "Unknown")
      case Ok(current) =>
        if current == JStr("0") then
          e.(value := WithBattery(ZeroMoistureLabel, batteryLow), moistureStatus := Remembered(code))
        else
          e.(value := WithBattery(StatusText(code), batteryLow), moistureStatus := Remembered(code))
    else
      e.(value := WithBattery(StatusText(code), batteryLow), moistureStatus := Remembered(code))
  }

  /** Appending the battery suffix to a base value: the result ends with it
      and removing it gives the base back. */
  lemma {:induction false} SuffixFacts(base: string)
    ensures EndsWith(base + BatterySuffix, BatterySuffix)
    ensures (base + BatterySuffix)[..|base|] == base
  {
    var s := base + BatterySuffix;
    assert s[|s| - |BatterySuffix|..] == BatterySuffix;
  }

  /** The values a moisture sensor can show before the battery suffix. */
  predicate IsMoistureBase(s: string) {
    IsLabel(s) || s == ZeroMoistureLabel
  }

  /** The moisture value is always one of the status labels or "To Low",
      followed by the battery suffix when the battery is low, except on
      the error path, which shows "Unknown" without a suffix. */
  lemma MoistureValueShape(e: Entity, m: map<string, Json>, batteryLow: bool)
    ensures var v := ApplyMoisture(e, m, batteryLow).value;
            || v == "Unknown"
            || (!batteryLow && IsMoistureBase(v))
            || (batteryLow && exists base :: IsMoistureBase(base) && v == base + BatterySuffix)
  {
  }

  /** The battery suffix appears exactly once when the battery is low (and
      the error path was not taken), and never otherwise. */
  lemma BatterySuffixExactlyOnce(e: Entity, m: map<string, Json>, batteryLow: bool)
    ensures var v := ApplyMoisture(e, m, batteryLow).value;
            && (!batteryLow ==> !EndsWith(v, BatterySuffix))
            && (batteryLow ==> (EndsWith(v, BatterySuffix) <==> v != "Unknown"))
            && (EndsWith(v, BatterySuffix) ==> !EndsWith(v[..|v| - |BatterySuffix|], BatterySuffix))
  {
    var code := StatusCode(m);
    var v := ApplyMoisture(e, m, batteryLow).value;
    var base: string;
    if EqualsInt(code, 0) {
      base := "No Data";
    } else if EqualsInt(code, 1) && !Values(m).JObj? {
      assert v == "Unknown";
      return;
    } else if EqualsInt(code, 1) && Get(Values(m).fields, "current", JNull) == JStr("0") {
      base := ZeroMoistureLabel;
    } else {
      base := StatusText(code);
      LabelsAreShort(base);
    }
    assert v == WithBattery(base, batteryLow);
    assert |base| < |BatterySuffix|;
    if batteryLow {
      SuffixFacts(base);
      assert v[..|v| - |BatterySuffix|] == base;
    }
  }
}

=== FILE: registry.dfy ===
/** The plant loop of `create_plant_sensors`: which plants of the user's
    plant list get entities, what those entities start with, and how they
    accumulate in the sensor registry (`_plant_sensors`, which is never
    reset between calls). The plant list and each plant's details document
    are the results of FYTA API calls and are given as inputs: `details`
    maps the string form of a plant id to what `get_plant_details` returned
    for it (an empty object when the call failed); plants that share an id
    share that document. */
module Registry {

  import opened Results
  import opened PyJson
  import opened Entities
  import opened Readings

  /** Why a plant was passed over. `Failed` is an exception caught by the
      loop's catch-all handler. */
  datatype SkipReason = NoSensor | MissingId | NoDetails | Failed(text: string)

  datatype PlantOutcome =
    | Skipped(reason: SkipReason)
    | Registered(temperature: Entity, moisture: Entity)

  /** The registry after processing some plants, and `entities_created`. */
  datatype Registration = Registration(sensors: map<string, Entity>, created: nat)

  /** The string a plant's id is rendered to (`str(plant_id)`). */
  function PlantKey(plant: Json): string {
    if plant.JObj? then Str(Get(plant.fields, "id", JNull)) else ""
  }

  /** A plant document has a sensor object whose `has_sensor` is truthy, a
      non-null id, and its details document is truthy. */
  predicate Eligible(plant: Json, details: string -> Json) {
    && plant.JObj?
    && Get(plant.fields, "sensor", JNull).JObj?
    && Truthy(Get(Get(plant.fields, "sensor", JNull).fields, "has_sensor", JBool(false)))
    && Get(plant.fields, "id", JNull) != JNull
    && Truthy(details(PlantKey(plant)))
  }

  /** A details document of the shape FYTA sends: an object whose `sensor`
      and `measurements` fields, when present, are objects. */
  predicate WellShapedDetails(d: Json) {
    && d.JObj?
    && ("sensor" in d.fields ==> d.fields["sensor"].JObj?)
    && ("measurements" in d.fields ==> d.fields["measurements"].JObj?)
  }

  /** `key in measurements and isinstance(measurements[key], dict)`: the
      measurement object under `key`, if there is one. A measurements field
      that is not a dict raises, unless `in` answers False on it. */
  function Measurement(measurements: Json, key: string): (r: Result<Option<map<string, Json>>>)
    ensures measurements.JObj? ==>
              r == Ok(if key in measurements.fields && measurements.fields[key].JObj?
                      then Some(measurements.fields[key].fields) else None)
    ensures r.Raised? <==> !measurements.JObj? && Contains(key, measurements) != Ok(false)
    ensures Contains(key, measurements) == Ok(false) ==> r == Ok(None)
  {
    var present :- Contains(key, measurements);
    if !present then Ok(None)
    else
      var m :- Subscript(measurements, key);
      if m.JObj? then Ok(Some(m.fields)) else Ok(None)
  }

  /** `"sensor" in plant_details and plant_details["sensor"].get("is_battery_low", False)` */
  function BatteryLow(d: Json): (r: Result<bool>)
    ensures d.JObj? && "sensor" !in d.fields ==> r == Ok(false)
    ensures d.JObj? && "sensor" in d.fields && d.fields["sensor"].JObj? ==>
              r == Ok(Truthy(Get(d.fields["sensor"].fields, "is_battery_low", JBool(false))))
    ensures d.JObj? && "sensor" in d.fields && !d.fields["sensor"].JObj? ==> r.Raised?
  {
    var present :- Contains("sensor", d);
    if !present then Ok(false)
    else
      var sensor :- Subscript(d, "sensor");
      var low :- DictGet(sensor, "is_battery_low", JBool(false));
      Ok(Truthy(low))
  }

  /** Sets the initial values of a plant's two entities from its (truthy)
      details document. Only the measured attributes change; details of
      FYTA's shape never raise, and without measurements the entities are
      returned as they were. */
  function ApplyDetails(temperature: Entity, moisture: Entity, d: Json): (r: Result<(Entity, Entity)>)
    ensures r.Ok? ==>
              && r.value.0 == temperature.(value := r.value.0.value, status := r.value.0.status)
              && r.value.1 == moisture.(value := r.value.1.value, moistureStatus := r.value.1.moistureStatus)
    ensures WellShapedDetails(d) ==> r.Ok?
    ensures d.JObj? && "measurements" !in d.fields ==> r == Ok((temperature, moisture))
  {
    var hasMeasurements :- Contains("measurements", d);
    if !hasMeasurements then Ok((temperature, moisture))
    else
      var measurements :- DictGet(d, "measurements", JObj(map[]));
      var batteryLow :- BatteryLow(d);
      var tm :- Measurement(measurements, "temperature");
      var temperature' := if tm.Some? then ApplyTemperature(temperature, tm.value) else temperature;
      var mm :- Measurement(measurements, "moisture");
      var moisture' := if mm.Some? then ApplyMoisture(moisture, mm.value, batteryLow) else moisture;
      Ok((temperature', moisture'))
  }

  /** One iteration of the plant loop. */
  function ProcessPlant(plant: Json, details: string -> Json): (o: PlantOutcome)
    ensures o.Registered? ==> Eligible(plant, details)
    ensures Eligible(plant, details) && WellShapedDetails(details(PlantKey(plant))) ==> o.Registered?
    ensures o.Registered? ==>
              && o.temperature.id == TemperatureId(PlantKey(plant))
              && o.moisture.id == MoistureId(PlantKey(plant))
              && o.temperature.kind == Temperature && o.moisture.kind == Moisture
              && o.temperature.plantId == PlantKey(plant) && o.moisture.plantId == PlantKey(plant)
    ensures o.Registered? && "nickname" !in plant.fields ==>
              && o.temperature.name == "Plant " + PlantKey(plant) + " Temperature"
              && o.moisture.name == "Plant " + PlantKey(plant) + " Moisture"
    ensures o.Registered? && "scientific_name" !in plant.fields ==>
              o.temperature.scientificName == JStr("Unknown") && o.moisture.scientificName == JStr("Unknown")
  {
    match plant
    case JObj(fields) =>
      var sensor := Get(fields, "sensor", JNull);
      var hasSensor := if sensor.JNull? then Ok(JBool(false)) else DictGet(sensor, "has_sensor", JBool(false));
      if hasSensor.Raised? then Skipped(Failed(hasSensor.error))
      else if !Truthy(hasSensor.value) then Skipped(NoSensor)
      else
        var id := Get(fields, "id", JNull);
        if id.JNull? then Skipped(MissingId)
        else
          var key := Str(id);
          var nickname := Get(fields, "nickname", JStr("Plant " + key));
          var scientificName := Get(fields, "scientific_name", JStr("Unknown"));
          var d := details(key);
          if !Truthy(d) then Skipped(NoDetails)
          else
            var temperature := NewTemperatureSensor(key, Str(nickname), scientificName);
            var moisture := NewMoistureSensor(key, Str(nickname), scientificName);
            (match ApplyDetails(temperature, moisture, d)
             case Raised(text) => Skipped(Failed(text))
             case Ok(pair) => Registered(pair.0, pair.1))
    case _ => Skipped(Failed("'" + TypeName(plant) + "' object has no attribute 'get'"))
  }

  /** For a plant that qualifies and whose details have FYTA's shape, the
      two entities are the fresh sensors with the temperature measurement
      object applied to the first and the moisture measurement object, with
      the battery flag, applied to the second; a measurement that is
      missing or not an object leaves its sensor at its defaults. */
  lemma InitialValues(plant: Json, details: string -> Json)
    requires Eligible(plant, details) && WellShapedDetails(details(PlantKey(plant)))
    ensures var o := ProcessPlant(plant, details);
            var key := PlantKey(plant);
            var d := details(key).fields;
            var nickname := Str(Get(plant.fields, "nickname", JStr("Plant " + key)));
            var scientificName := Get(plant.fields, "scientific_name", JStr("Unknown"));
            var t0 := NewTemperatureSensor(key, nickname, scientificName);
            var m0 := NewMoistureSensor(key, nickname, scientificName);
            var ms := if "measurements" in d then d["measurements"].fields else map[];
            var low := "sensor" in d && Truthy(Get(d["sensor"].fields, "is_battery_low", JBool(false)));
            && o.Registered?
            && o.temperature == (if "temperature" in ms && ms["temperature"].JObj?
                                 then ApplyTemperature(t0, ms["temperature"].fields) else t0)
            && o.moisture == (if "moisture" in ms && ms["moisture"].JObj?
                              then ApplyMoisture(m0, ms["moisture"].fields, low) else m0)
  {
  }

  /** Stores a plant's entities under their identifiers, if it has any. */
  function AddPlant(r: Registration, plant: Json, details: string -> Json): (r': Registration)
    ensures ProcessPlant(plant, details).Skipped? ==> r' == r
    ensures ProcessPlant(plant, details).Registered? ==>
              var o := ProcessPlant(plant, details);
              && r'.sensors.Keys == r.sensors.Keys + {o.temperature.id, o.moisture.id}
              && r'.sensors[o.temperature.id] == o.temperature
              && r'.sensors[o.moisture.id] == o.moisture
              && r'.created == r.created + 2
              && (forall k :: k in r.sensors && k != o.temperature.id && k != o.moisture.id ==>
                    r'.sensors[k] == r.sensors[k])
  {
    match ProcessPlant(plant, details)
    case Skipped(_) => r
    case Registered(t, m) =>
      IdsNeverCollide(PlantKey(plant), PlantKey(plant));
      Registration(r.sensors[t.id := t][m.id := m], r.created + 2)
  }

  /** The registry after the loop has gone through `plants` in order. */
  function RegisterPlants(r: Registration, plants: seq<Json>, details: string -> Json): (r': Registration)
    ensures r.sensors.Keys <= r'.sensors.Keys
    ensures r.created <= r'.created
    decreases |plants|
  {
    if |plants| == 0 then r
    else AddPlant(RegisterPlants(r, plants[..|plants| - 1], details), plants[|plants| - 1], details)
  }

  /** The ids of the plants that get entities, in list order. */
  function RegisteredIds(plants: seq<Json>, details: string -> Json): seq<string>
    decreases |plants|
  {
    if |plants| == 0 then []
    else
      var last := plants[|plants| - 1];
      RegisteredIds(plants[..|plants| - 1], details)
        + (if ProcessPlant(last, details).Registered? then [PlantKey(last)] else [])
  }

  /** The entity identifiers of a list of plant ids. */
  function EntityIds(ids: seq<string>): set<string> {
    (set i | i in ids :: TemperatureId(i)) + (set i | i in ids :: MoistureId(i))
  }

  lemma EntityIdsSnoc(ids: seq<string>, x: string)
    ensures EntityIds(ids + [x]) == EntityIds(ids) + {TemperatureId(x), MoistureId(x)}
  {
    var a := ids + [x];
    assert forall i :: i in a <==> i in ids || i == x;
  }

  /** What the loop does to the registry: it gains exactly the identifiers
      of the plants that get entities, `entities_created` grows by two per
      such plant, entries under other identifiers are left as they were, and
      every entry it writes is keyed by its own identifier. */
  lemma {:induction false} RegisterPlantsEffect(r: Registration, plants: seq<Json>, details: string -> Json)
    ensures var r' := RegisterPlants(r, plants, details);
            var added := EntityIds(RegisteredIds(plants, details));
            && r'.sensors.Keys == r.sensors.Keys + added
            && r'.created == r.created + 2 * |RegisteredIds(plants, details)|
            && (forall k :: k in r.sensors && k !in added ==> r'.sensors[k] == r.sensors[k])
            && (forall k :: k in added ==> r'.sensors[k].id == k)
    decreases |plants|
  {
    if |plants| == 0 {
      assert EntityIds([]) == {};
    } else {
      var init := plants[..|plants| - 1];
      var last := plants[|plants| - 1];
      RegisterPlantsEffect(r, init, details);
      var ids := RegisteredIds(init, details);
      match ProcessPlant(last, details)
      case Skipped(_) =>
        assert RegisteredIds(plants, details) == ids + [];
        assert ids + [] == ids;
      case Registered(t, m) =>
        assert RegisteredIds(plants, details) == ids + [PlantKey(last)];
        EntityIdsSnoc(ids, PlantKey(last));
    }
  }

  /** Entries already in the registry are never removed. */
  lemma RegistryNeverShrinks(r: Registration, plants: seq<Json>, details: string -> Json)
    ensures r.sensors.Keys <= RegisterPlants(r, plants, details).sensors.Keys
  {
    RegisterPlantsEffect(r, plants, details);
  }

  /** Processing a list in two parts gives the same registry as processing
      it at once: each plant's effect depends only on the plant itself. */
  lemma {:induction false} RegisterConcat(r: Registration, a: seq<Json>, b: seq<Json>, details: string -> Json)
    ensures RegisterPlants(r, a + b, details) == RegisterPlants(RegisterPlants(r, a, details), b, details)
    decreases |b|
  {
    if |b| == 0 {
      assert a + b == a;
    } else {
      var b0 := b[..|b| - 1];
      assert (a + b)[..|a + b| - 1] == a + b0;
      assert (a + b)[|a + b| - 1] == b[|b| - 1];
      RegisterConcat(r, a, b0, details);
    }
  }

  /** A plant that is skipped changes nothing, and the plants after it are
      processed exactly as if it were not in the list. */
  lemma SkippedPlantChangesNothing(r: Registration, a: seq<Json>, p: Json, b: seq<Json>, details: string -> Json)
    requires ProcessPlant(p, details).Skipped?
    ensures RegisterPlants(r, a + [p] + b, details) == RegisterPlants(r, a + b, details)
  {
    RegisterConcat(r, a + [p], b, details);
    RegisterConcat(r, a, [p], details);
    assert [p][..0] == [];
    RegisterConcat(r, a, b, details);
  }

  /** The last plant in the list with a given id decides what is stored
      under that id's identifiers: a plant that gets entities keeps them in
      the registry unless a later plant with the same id gets entities too. */
  lemma {:induction false} LastWriterWins(r: Registration, plants: seq<Json>, details: string -> Json, i: nat)
    requires i < |plants| && ProcessPlant(plants[i], details).Registered?
    requires forall j :: i < j < |plants| && ProcessPlant(plants[j], details).Registered? ==>
               PlantKey(plants[j]) != PlantKey(plants[i])
    ensures var o := ProcessPlant(plants[i], details);
            var s := RegisterPlants(r, plants, details).sensors;
            && o.temperature.id in s && s[o.temperature.id] == o.temperature
            && o.moisture.id in s && s[o.moisture.id] == o.moisture
    decreases |plants|
  {
    var n := |plants| - 1;
    var init := plants[..n];
    var o := ProcessPlant(plants[i], details);
    if i < n {
      assert init[i] == plants[i];
      forall j | i < j < |init| && ProcessPlant(init[j], details).Registered?
        ensures PlantKey(init[j]) != PlantKey(init[i])
      {
        assert init[j] == plants[j];
      }
      LastWriterWins(r, init, details, i);
      var last := ProcessPlant(plants[n], details);
      if last.Registered? {
        var a, b := PlantKey(plants[i]), PlantKey(plants[n]);
        TemperatureIdInjective(a, b);
        MoistureIdInjective(a, b);
        IdsNeverCollide(a, b);
        IdsNeverCollide(b, a);
      }
    }
  }

  /** What `get_user_plants` returns, given the stored access token and the
      outcome of its HTTP call (the decoded body, or the text of the
      exception). Without a token, on a failed call, on a body that is not
      a dict, and on a `plants` value `len` rejects (the log line calls
      `len` inside the same try), the result is the empty list. So the
      `len(plants)` of the loop's log line never raises. */
  function UserPlants(accessToken: Json, response: Result<Json>): (plants: Json)
    ensures Len(plants).Ok?
    ensures !Truthy(accessToken) || response.Raised? ==> plants == JArr([])
    ensures Truthy(accessToken) && response.Ok? && !response.value.JObj? ==> plants == JArr([])
    ensures Truthy(accessToken) && response.Ok? && response.value.JObj? ==>
              var p := Get(response.value.fields, "plants", JArr([]));
              plants == (if Len(p).Ok? then p else JArr([]))
  {
    if !Truthy(accessToken) then JArr([])
    else
      match response
      case Raised(_) => JArr([])
      case Ok(data) =>
        match DictGet(data, "plants", JArr([]))
        case Raised(_) => JArr([])
        case Ok(plants) => if Len(plants).Raised? then JArr([]) else plants
  }

  /** A `plants: null` body gives the empty list rather than an exception. */
  lemma NullPlantListIsEmpty(accessToken: Json, fields: map<string, Json>)
    requires Truthy(accessToken) && "plants" in fields && fields["plants"] == JNull
    ensures UserPlants(accessToken, Ok(JObj(fields))) == JArr([])
  {
  }

  /** The documents `for plant in plants` visits: the items of a list, the
      one-character strings of a string. Iterating a dict visits its keys,
      which are strings too; since every string plant is skipped
      (`StringPlantsChangeNothing`), they are represented by no items. */
  function PlantItems(plants: Json): (items: seq<Json>)
    ensures plants.JArr? ==> items == plants.items
    ensures plants.JStr? ==> |items| == |plants.s| && forall k :: 0 <= k < |items| ==> items[k] == JStr([plants.s[k]])
    ensures !plants.JArr? ==> forall k :: 0 <= k < |items| ==> items[k].JStr?
  {
    match plants
    case JArr(items) => items
    case JStr(s) => seq(|s|, k requires 0 <= k < |s| => JStr([s[k]]))
    case _ => []
  }

  /** A plant document that is a string has no `.get`, so it is skipped
      with Python's AttributeError for `str`. */
  lemma StringPlantSkipped(plant: Json, details: string -> Json)
    requires plant.JStr?
    ensures TypeName(plant) == "str"
    ensures ProcessPlant(plant, details) == Skipped(Failed("'" + TypeName(plant) + "' object has no attribute 'get'"))
  {
  }

  /** A list of string plants leaves the registry as it was. */
  lemma {:induction false} StringPlantsChangeNothing(r: Registration, plants: seq<Json>, details: string -> Json)
    requires forall k :: 0 <= k < |plants| ==> plants[k].JStr?
    ensures RegisterPlants(r, plants, details) == r
    decreases |plants|
  {
    if |plants| > 0 {
      var init := plants[..|plants| - 1];
      assert forall k :: 0 <= k < |init| ==> init[k] == plants[k];
      StringPlantsChangeNothing(r, init, details);
      StringPlantSkipped(plants[|plants| - 1], details);
    }
  }

  /** The loop of `create_plant_sensors` over the plant list. */
  method CreatePlantSensors(sensors: map<string, Entity>, plants: seq<Json>, details: string -> Json)
    returns (r: Registration)
    ensures r == RegisterPlants(Registration(sensors, 0), plants, details)
    ensures r.sensors.Keys == sensors.Keys + EntityIds(RegisteredIds(plants, details))
    ensures r.created == 2 * |RegisteredIds(plants, details)|
    ensures forall k :: k in sensors && k !in EntityIds(RegisteredIds(plants, details)) ==> r.sensors[k] == sensors[k]
    ensures forall k :: k in EntityIds(RegisteredIds(plants, details)) ==> r.sensors[k].id == k
  {
    r := Registration(sensors, 0);
    var i := 0;
    while i < |plants|
      invariant 0 <= i <= |plants|
      invariant r == RegisterPlants(Registration(sensors, 0), plants[..i], details)
      decreases |plants| - i
    {
      match ProcessPlant(plants[i], details) {
        case Skipped(_) =>
        case Registered(t, m) =>
          r := Registration(r.sensors[t.id := t][m.id := m], r.created + 2);
      }
      assert plants[..i + 1][..i] == plants[..i];
      i := i + 1;
    }
    assert plants[..|plants|] == plants;
    RegisterPlantsEffect(Registration(sensors, 0), plants, details);
  }
}

=== FILE: setup.dfy ===
/** The driver-setup dialogue (`driver_setup_handler`, `handle_driver_setup`,
    `handle_account_config`): a two-step machine that hands the host the
    account form, then checks the credentials the user typed against the
    FYTA login, stores the account record and loads the plants. The login
    response, the fresh uuid, the outcome of writing the config file and
    the plant documents are given as inputs (`Network`). */
module Setup {

  import opened Results
  import opened PyJson
  import opened Entities
  import opened Config
  import opened Registry

  datatype SetupStep = Init | AccountConfig

  /** The setup messages the host sends. `OtherSetupMessage` stands for any
      other kind, which the handler answers like an unexpected one. */
  datatype SetupMessage =
    | DriverSetupRequest
    | UserDataResponse(inputValues: map<string, string>)
    | AbortDriverSetup(error: string)
    | OtherSetupMessage

  datatype FieldKind = InfoText(text: string) | TextInput(placeholder: string, masked: bool)

  datatype FormField = FormField(id: string, fieldLabel: string, kind: FieldKind)

  datatype Form = Form(title: string, fields: seq<FormField>)

  /** `SetupError` carries the text the source passes, if any. */
  datatype SetupAction = RequestUserInput(form: Form) | SetupComplete | SetupError(message: Option<string>)

  /** The outside world an account-config step talks to: the outcome of
      `authenticate_fyta` (the decoded response, or the text of the
      exception it raised), the uuid `str(uuid.uuid4())` yields, whether
      writing the config file works, the outcome of the plant-list HTTP
      call, and what `get_plant_details` returns per plant id. */
  datatype Network = Network(
    auth: Result<Json>,
    freshId: string,
    saveSucceeds: bool,
    plantsResponse: Result<Json>,
    details: string -> Json)

  /** The driver's global state: `_setup_step`, `_fyta_config`, the decoded
      content of the config file, and `_plant_sensors`. */
  datatype DriverState = DriverState(
    step: SetupStep,
    config: Option<FytaConfig>,
    configFile: Option<Json>,
    sensors: map<string, Entity>)

  const AccountForm: Form := Form(
    "FYTA Account Configuration",
    [ FormField("info", "FYTA Account", InfoText("Please enter your FYTA account credentials.")),
      FormField("email", "FYTA Email", TextInput("Your FYTA account email", false)),
      FormField("password", "FYTA Password", TextInput("Your FYTA account password", true)) ])

  const MissingCredentialsMessage: string := "Please provide both email and password"
  const AuthFailedMessage: string := "Authentication failed. Please check your credentials."

  /** The state at startup: step INIT, the record `load_config` finds in
      the config file, no sensors yet. */
  function Start(file: Option<Json>, freshId: string): (s: DriverState)
    ensures s.step == Init && s.sensors == map[] && s.configFile == file
    ensures s.config.Some? <==> file.Some? && file.value.JObj?
    ensures file.Some? && file.value.JObj? && file.value.fields.Keys == ConfigKeys ==>
              SaveConfig(s.config.value) == file.value.fields
  {
    DriverState(Init, LoadConfig(file, freshId), file, map[])
  }

  /** The three token fields read from a login response. */
  function Tokens(response: Json): Result<(Json, Json, Json)> {
    var access :- DictGet(response, "access_token", JNull);
    var refresh :- DictGet(response, "refresh_token", JNull);
    var expires :- DictGet(response, "expires_in", JNull);
    Ok((access, refresh, expires))
  }

  /** The login response carries a token: it is an object with an
      `access_token` key. */
  predicate Accepted(response: Result<Json>) {
    response.Ok? && response.value.JObj? && "access_token" in response.value.fields
  }

  /** The plant documents the loop of `create_plant_sensors` visits, once
      the record holding `accessToken` is stored. */
  function LoadedPlants(accessToken: Json, net: Network): seq<Json> {
    PlantItems(UserPlants(accessToken, net.plantsResponse))
  }

  /** `handle_account_config`. The step is not changed; an error answer
      changes nothing; completion stores a record and only adds sensors. */
  function AccountConfigStep(s: DriverState, values: map<string, string>, net: Network): (r: (DriverState, SetupAction))
    ensures r.0.step == s.step
    ensures r.1.SetupComplete? || r.1.SetupError?
    ensures r.1.SetupError? ==> r.0 == s
    ensures r.1.SetupComplete? ==>
              && r.0.config.Some? && s.sensors.Keys <= r.0.sensors.Keys
              && r.0.configFile == (if net.saveSucceeds then Some(JObj(SaveConfig(r.0.config.value))) else s.configFile)
  {
    if "email" !in values || "password" !in values then
      (s, SetupError(Some(MissingCredentialsMessage)))
    else
      match net.auth
      case Raised(text) => (s, SetupError(Some("Error: " + text)))
      case Ok(response) =>
        if !Truthy(response) then (s, SetupError(Some(AuthFailedMessage)))
        else
          match Contains("access_token", response)
          case Raised(text) => (s, SetupError(Some("Error: " + text)))
          case Ok(hasToken) =>
            if !hasToken then (s, SetupError(Some(AuthFailedMessage)))
            else
              match Tokens(response)
              case Raised(text) => (s, SetupError(Some("Error: " + text)))
              case Ok(tokens) =>
                var config := FytaConfig(JStr(net.freshId), JStr(values["email"]), JStr(values["password"]),
                                         tokens.0, tokens.1, tokens.2);
                var file := if net.saveSucceeds then Some(JObj(SaveConfig(config))) else s.configFile;
                var registration := RegisterPlants(Registration(s.sensors, 0), LoadedPlants(tokens.0, net), net.details);
                (DriverState(s.step, Some(config), file, registration.sensors), SetupComplete)
  }

  /** `driver_setup_handler`: the next state and the action returned to the host. */
  function HandleSetup(s: DriverState, msg: SetupMessage, net: Network): (r: (DriverState, SetupAction))
    ensures r.0.step == (if msg.DriverSetupRequest? then AccountConfig
                         else if msg.AbortDriverSetup? then Init else s.step)
    ensures r.1.RequestUserInput? <==> msg.DriverSetupRequest?
    ensures r.1.SetupComplete? ==> msg.UserDataResponse? && s.step == AccountConfig
    ensures s.sensors.Keys <= r.0.sensors.Keys
  {
    match msg
    case DriverSetupRequest => (s.(step := AccountConfig), RequestUserInput(AccountForm))
    case UserDataResponse(values) =>
      if s.step == AccountConfig then AccountConfigStep(s, values, net) else (s, SetupError(None))
    case AbortDriverSetup(_) => (s.(step := Init), SetupError(None))
    case OtherSetupMessage => (s, SetupError(None))
  }

  /** A setup request always opens the account form, from any state, and
      touches nothing but the step. */
  lemma SetupRequestOpensForm(s: DriverState, net: Network)
    ensures HandleSetup(s, DriverSetupRequest, net) == (s.(step := AccountConfig), RequestUserInput(AccountForm))
  {
  }

  /** Aborting resets the step and answers with an error, changing nothing else. */
  lemma AbortResets(s: DriverState, error: string, net: Network)
    ensures HandleSetup(s, AbortDriverSetup(error), net) == (s.(step := Init), SetupError(None))
  {
  }

  /** A user-data response outside the account step is refused and changes nothing. */
  lemma UserDataOutsideAccountStep(s: DriverState, values: map<string, string>, net: Network)
    requires s.step != AccountConfig
    ensures HandleSetup(s, UserDataResponse(values), net) == (s, SetupError(None))
  {
  }

  /** Every error answer to a message other than an abort leaves the whole
      state as it was; the only state change an error answer brings is the
      abort's reset of the step. */
  lemma ErrorsChangeNothing(s: DriverState, msg: SetupMessage, net: Network)
    requires !msg.AbortDriverSetup?
    ensures HandleSetup(s, msg, net).1.SetupError? ==> HandleSetup(s, msg, net).0 == s
  {
  }

  /** Setup completes exactly when the account step receives both fields
      and the login returns an object carrying an access token; then the
      stored record holds the typed email and password and the login's
      tokens, and the plants are registered. Otherwise the answer is an
      error: a missing field gives the credentials message; a falsy
      response, or one where `"access_token" in response` answers False,
      gives the authentication message; a failed login or an `in` that
      raises gives "Error: " and the exception text. */
  lemma AccountConfigOutcome(s: DriverState, values: map<string, string>, net: Network)
    requires s.step == AccountConfig
    ensures var (s', action) := HandleSetup(s, UserDataResponse(values), net);
            && (action == SetupComplete <==> "email" in values && "password" in values && Accepted(net.auth))
            && ("email" !in values || "password" !in values ==> action == SetupError(Some(MissingCredentialsMessage)))
            && (("email" in values && "password" in values && net.auth.Ok?
                 && (!Truthy(net.auth.value) || Contains("access_token", net.auth.value) == Ok(false)))
                ==> action == SetupError(Some(AuthFailedMessage)))
            && (("email" in values && "password" in values && net.auth.Raised?)
                ==> action == SetupError(Some("Error: " + net.auth.error)))
            && (("email" in values && "password" in values && net.auth.Ok? && Truthy(net.auth.value)
                 && Contains("access_token", net.auth.value).Raised?)
                ==> action == SetupError(Some("Error: " + Contains("access_token", net.auth.value).error)))
            && (action == SetupComplete ==>
                  var fields := net.auth.value.fields;
                  && s'.step == AccountConfig
                  && s'.config == Some(FytaConfig(JStr(net.freshId), JStr(values["email"]), JStr(values["password"]),
                                                  fields["access_token"], Get(fields, "refresh_token", JNull),
                                                  Get(fields, "expires_in", JNull)))
                  && s'.sensors == RegisterPlants(Registration(s.sensors, 0),
                                                  LoadedPlants(fields["access_token"], net), net.details).sensors)
  {
    if "email" in values && "password" in values && net.auth.Ok? && Truthy(net.auth.value) {
      var response := net.auth.value;
      if response.JObj? && "access_token" in response.fields {
        assert Tokens(response).Ok?;
      }
    }
  }

  /** After a successful setup whose file write worked, loading the config
      file yields exactly the record the driver holds. */
  lemma SavedConfigReloads(s: DriverState, values: map<string, string>, net: Network, anyId: string)
    requires s.step == AccountConfig && net.saveSucceeds
    requires HandleSetup(s, UserDataResponse(values), net).1 == SetupComplete
    ensures var s' := HandleSetup(s, UserDataResponse(values), net).0;
            s'.config.Some? && LoadConfig(s'.configFile, anyId) == s'.config
  {
    var s' := HandleSetup(s, UserDataResponse(values), net).0;
    LoadSaveRoundTrip(s'.config.value, anyId);
  }

  /** The step after a run of messages starting from INIT: ACCOUNT_CONFIG
      exactly when the last setup request came after the last abort. */
  function SessionOpen(msgs: seq<(SetupMessage, Network)>): bool
    decreases |msgs|
  {
    if |msgs| == 0 then false
    else
      match msgs[|msgs| - 1].0
      case DriverSetupRequest => true
      case AbortDriverSetup(_) => false
      case _ => SessionOpen(msgs[..|msgs| - 1])
  }

  /** The state after handling a run of messages in order. */
  function Run(s: DriverState, msgs: seq<(SetupMessage, Network)>): DriverState
    decreases |msgs|
  {
    if |msgs| == 0 then s
    else
      var last := msgs[|msgs| - 1];
      HandleSetup(Run(s, msgs[..|msgs| - 1]), last.0, last.1).0
  }

  /** From INIT, the machine is in the account step exactly when a setup
      request has been seen and no abort since. */
  lemma {:induction false} StepTracksSession(s: DriverState, msgs: seq<(SetupMessage, Network)>)
    requires s.step == Init
    ensures Run(s, msgs).step == AccountConfig <==> SessionOpen(msgs)
    decreases |msgs|
  {
    if |msgs| > 0 {
      StepTracksSession(s, msgs[..|msgs| - 1]);
    }
  }

  /** So setup can only complete inside a session: a user-data response
      answered with SetupComplete needs a setup request before it and no
      abort in between. */
  lemma CompletionNeedsOpenSession(s: DriverState, msgs: seq<(SetupMessage, Network)>, msg: SetupMessage, net: Network)
    requires s.step == Init
    requires HandleSetup(Run(s, msgs), msg, net).1 == SetupComplete
    ensures SessionOpen(msgs)
  {
    StepTracksSession(s, msgs);
  }

  /** No message ever removes a sensor from the registry. */
  lemma {:induction false} SensorsNeverRemoved(s: DriverState, msgs: seq<(SetupMessage, Network)>)
    ensures s.sensors.Keys <= Run(s, msgs).sensors.Keys
    decreases |msgs|
  {
    if |msgs| > 0 {
      SensorsNeverRemoved(s, msgs[..|msgs| - 1]);
    }
  }
}

=== FILE: status.dfy ===
/** The label FYTA's measurement status codes are shown with
    (`get_measurement_status_text`). */
module Status {

  import opened PyJson

  /** The label of status code k, for k in 0..5. */
  const Labels: seq<string> := ["No Data", "Too Low", "Low", "Perfect", "High", "Too High"]

  /** The label of every other value, including a missing status. */
  const UnknownLabel: string := "Unknown"

  /** The seven labels a status can be shown with. */
  predicate IsLabel(s: string) {
    s in Labels || s == UnknownLabel
  }

  function StatusText(code: Json): (text: string)
    ensures IsLabel(text)
    ensures forall k :: 0 <= k < |Labels| ==> (EqualsInt(code, k) <==> text == Labels[k])
    ensures text == UnknownLabel <==> forall k :: 0 <= k < |Labels| ==> !EqualsInt(code, k)
  {
    if EqualsInt(code, 0) then "No Data"
    else if EqualsInt(code, 1) then "Too Low"
    else if EqualsInt(code, 2) then "Low"
    else if EqualsInt(code, 3) then "Perfect"
    else if EqualsInt(code, 4) then "High"
    else if EqualsInt(code, 5) then "Too High"
    else "Unknown"
  }

  /** No label is longer than eight characters. */
  lemma LabelsAreShort(s: string)
    requires IsLabel(s)
    ensures |s| <= 8
  {
  }

  /** An integer status code gets its table label, any other integer "Unknown". */
  lemma IntegerCodes(k: int)
    ensures 0 <= k < |Labels| ==> StatusText(JInt(k)) == Labels[k]
    ensures (k < 0 || k >= |Labels|) ==> StatusText(JInt(k)) == UnknownLabel
  {
  }

  /** Values that are not numbers (a missing status, a string such as "3",
      a list or an object) are shown as "Unknown". */
  lemma NonNumbersAreUnknown(code: Json)
    requires code.JNull? || code.JStr? || code.JArr? || code.JObj?
    ensures StatusText(code) == UnknownLabel
  {
  }
}

=== FILE: subscription.dfy ===
/** `on_subscribe_entities`: the host asks for a list of entity ids; each
    one that is configured already, or available and therefore copied into
    the configured set, is switched ON (temperature sensors also get their
    unit). Unknown ids are ignored. Both collections are maps from entity
    id to entity. */
module Subscription {

  import opened Results
  import opened Entities

  const TemperatureUnit: string := "°C"

  /** The attribute update the handler sends for one subscribed entity:
      state ON, value kept, and the unit for a temperature sensor. */
  function Activate(e: Entity): (r: Entity)
    ensures r.state == StateOn
    ensures r.id == e.id && r.kind == e.kind && r.value == e.value && r.name == e.name
    ensures r.kind == Temperature ==> r.unit == Some(TemperatureUnit)
    ensures r.kind == Moisture ==> r.unit == e.unit
    ensures r.(state := e.state, unit := e.unit) == e
  {
    if e.kind == Temperature then e.(state := StateOn, unit := Some(TemperatureUnit))
    else e.(state := StateOn)
  }

  /** Switching an entity on twice is the same as once. */
  lemma ActivateIdempotent(e: Entity)
    ensures Activate(Activate(e)) == Activate(e)
  {
  }

  /** The handler's body for one id: the configured entity, or else the
      available one, is switched on; other entries stay as they were. */
  function SubscribeOne(configured: map<string, Entity>, available: map<string, Entity>, id: string)
    : (r: map<string, Entity>)
    ensures r.Keys == configured.Keys + (if id in available then {id} else {})
    ensures forall k :: k in configured && k != id ==> r[k] == configured[k]
    ensures id in configured ==> r[id] == Activate(configured[id])
    ensures id !in configured && id in available ==> r[id] == Activate(available[id])
  {
    if id in configured then configured[id := Activate(configured[id])]
    else if id in available then configured[id := Activate(available[id])]
    else configured
  }

  /** The handler over the whole id list, in order. */
  function Subscribe(configured: map<string, Entity>, available: map<string, Entity>, ids: seq<string>)
    : (r: map<string, Entity>)
    ensures configured.Keys <= r.Keys <= configured.Keys + available.Keys
    decreases |ids|
  {
    if |ids| == 0 then configured
    else Subscribe(SubscribeOne(configured, available, ids[0]), available, ids[1..])
  }

  /** What a subscription does to the configured collection: it gains the
      requested ids that are available, entries not requested stay as they
      were, and every requested entry that exists is the configured entity
      (or, failing that, the available one) switched on. */
  lemma {:induction false} SubscribeEffect(configured: map<string, Entity>, available: map<string, Entity>, ids: seq<string>)
    ensures var r := Subscribe(configured, available, ids);
            && r.Keys == configured.Keys + (set i | i in ids && i in available)
            && (forall k :: k in configured && k !in ids ==> r[k] == configured[k])
            && (forall k :: k in ids && k in configured ==> r[k] == Activate(configured[k]))
            && (forall k :: k in ids && k !in configured && k in available ==> r[k] == Activate(available[k]))
    decreases |ids|
  {
    if |ids| > 0 {
      var x := ids[0];
      var rest := ids[1..];
      var c1 := SubscribeOne(configured, available, x);
      SubscribeEffect(c1, available, rest);
      var r := Subscribe(configured, available, ids);
      assert r == Subscribe(c1, available, rest);
      assert forall i :: i in ids <==> i == x || i in rest;
      forall k | k in ids && (k in configured || k in available)
        ensures r[k] == Activate(if k in configured then configured[k] else available[k])
      {
        var e := if k in configured then configured[k] else available[k];
        if k in rest {
          ActivateIdempotent(e);
        }
      }
    }
  }

  /** Every entity the host subscribed to and that exists is ON afterwards. */
  lemma SubscribedAreOn(configured: map<string, Entity>, available: map<string, Entity>, ids: seq<string>, k: string)
    requires k in ids && (k in configured || k in available)
    ensures k in Subscribe(configured, available, ids)
    ensures Subscribe(configured, available, ids)[k].state == StateOn
  {
    SubscribeEffect(configured, available, ids);
  }

  /** Repeating a subscription changes nothing. */
  lemma SubscribeIdempotent(configured: map<string, Entity>, available: map<string, Entity>, ids: seq<string>)
    ensures var once := Subscribe(configured, available, ids);
            Subscribe(once, available, ids) == once
  {
    var once := Subscribe(configured, available, ids);
    var twice := Subscribe(once, available, ids);
    SubscribeEffect(configured, available, ids);
    SubscribeEffect(once, available, ids);
    forall k | k in twice
      ensures twice[k] == once[k]
    {
      if k in ids {
        assert k in once;
        if k in configured {
          ActivateIdempotent(configured[k]);
        } else {
          ActivateIdempotent(available[k]);
        }
      }
    }
  }
}
